=== FILE: README.md ===
# Fishing game engine — a Dafny model

This project models the simulation inside the `FishingGame` React component of
an arcade fishing game. The player moves a boat, casts a line and hooks a fish.
The player then wins the fish by clicking while a progress bar lies inside a
target zone, before a 137-second countdown ends.

The component keeps its state in React hooks. Here that state is one immutable
record (`Engine.Game`), and every hook callback is a pure transition on it:

- **Ids**: the `fish-<i>` ids and the decimal rendering they use. The rendering is proved to round-trip, so ids are distinct.
- **Population**: the species table, the three-draw species cascade, spawning of the 15 fish, and the per-frame bounce-and-clamp motion.
- **FishingLine**: the line's integer length, its two flags `isExtending` and `isRetracting`, and the 50 ms tick.
- **Timing**: the timing challenge, its progress step with wrap at 100, and the draw of the target zone.
- **Bite**: the cast check. It takes the first fish in list order inside the strict 50-unit box around the hook (boat position, 220 + length), then removes it by id.
- **Economy**: money, timer, playing flag, score, catch counter, the one-second countdown and the game-over check.
- **Engine**: the whole game state, the player intents, the deferred callbacks, the events that drive them, and the invariant every event keeps.
- **Wrappers**: the `Option` datatype, standing in for the component's nullable references.

`Engine.Apply` is the component as written, catch click included
(`Engine.ClickAsWritten`). `Engine.ApplyCorrected` differs from it only in
using the corrected click (`Engine.Click`, see Findings). `ApplyKeepsInv`,
`RunKeepsInv`, `MoneyOnlyOnCatch` and `AtMostOneRemoved` are about `Apply`.
`ApplyCorrectedKeepsInv` and `MoneyOnlyOnCatchCorrected` are about
`ApplyCorrected`.

Every `Math.random()` draw is a parameter: a real in [0, 1). `Math.sin` is a
parameter `sin: real -> real`, applied to each fish's swim angle. Coordinates,
speeds and zone bounds are `real`. Money, timer, line length, progress and boat
position are integers.

The component uses timers. The retract that starts 500 ms after a cast is one.
The challenge reset that comes 1 s after a catch is the other. Each becomes a
pending counter plus an event (`RetractTimeout`, `ResetTimeout`) that fires it.
The source never cancels these timers, so the model does not cancel them
either. The frame loops and intervals are events too (`FishAnimation`,
`ProgressAnimation`, `LineInterval`, `CountdownInterval`).

Some behaviour of the component worth stating plainly:

- The species draw is a cascade of three independent draws. It gives small 0.4, medium 0.18, large 0.084 and shark 0.336 (`Population.SpeciesWeights`).
- Choosing the hooked fish involves no randomness: there is no per-species bite chance, and the first matching fish in list order is taken. Only the target zone of the challenge a cast opens is drawn at random.
- `startGame` does not reset money, timer or the catch counter. It only sets the playing flag, idles the line and respawns the fish. So a restart after time has run out is stopped again at once (`Engine.RestartAfterTimeout`).
- The start button is rendered only while the game is stopped (src/components/FishingGame.tsx:570-595), but `startGame` itself has no guard. `Engine.StartGame` is modelled as callable in any state.
- The zone's start lies in [50, 70) and its end in [70, 90). The window can never be inverted (`Timing.NewZone`).
- Extension stops only on a second toggle, never at a maximum length.

The line does not always stay at or below 352. An extend-only cast never goes
past 352 (`FishingLine.ExtendingCast`). But three quick presses of the space
bar can set both flags at once: start, stop while the length is still 0, then
start again before the pending retract fires. The invariant the model proves
is therefore that the length is a multiple of 4 in [-8, 356].
`Engine.ToggleRace` shows that 356 is reached.

## Model

| member | source | states |
|---|---|---|
| Ids.ParseRendered | src/components/FishingGame.tsx:80 | parsing the decimal rendering of an index gives the index back |
| Ids.FishIdInjective | src/components/FishingGame.tsx:80 | `fish-<i>` ids of two indices are equal exactly when the indices are |
| Population.DrawSpeciesRegions | src/components/FishingGame.tsx:75-77 | the cascade picks a species exactly when the three draws fall in that species' box of the unit cube |
| Population.SpeciesWeights | src/components/FishingGame.tsx:75-77 | the boxes have volumes 0.4, 0.18, 0.084, 0.336, summing to 1 |
| Population.SpawnOne | src/components/FishingGame.tsx:74-92 | a spawned fish has id `fish-i`, the drawn species with its value and size, x in [0,750), y in [280,560), speeds within base plus jitter, directions ±1 |
| Population.Spawn | src/components/FishingGame.tsx:72-95 | fish k comes from the k-th draws; the whole population is well formed and has distinct ids |
| Population.Reflect | src/components/FishingGame.tsx:110-119 | the clamped coordinate lies within the bounds; the direction flips exactly when the unclamped value is at or past a bound |
| Population.StepFish | src/components/FishingGame.tsx:101-130 | for any prior position the fish ends in [0,750]×[280,580]; a coordinate whose unclamped value is at or past a bound is clamped to that bound and its direction negated, one strictly inside is moved unclamped with its direction kept; the swim angle grows by 0.02; identity, species and speeds are kept |
| Population.StepAll | src/components/FishingGame.tsx:101-130 | every fish is stepped with the sine of its own swim angle, in order, keeping its id |
| Population.StepAllKeepsInvariant | src/components/FishingGame.tsx:101-130 | a frame keeps every fish well formed and the ids distinct |
| FishingLine.Tick | src/components/FishingGame.tsx:250-258 | the four rules in order: extending below 350 adds 8; otherwise retracting above 0 subtracts 12; otherwise retracting at or below 0 resets to the idle line; otherwise the line is unchanged; the bounds [-8,356] (multiple of 4) are kept |
| FishingLine.ExtendingCast | src/components/FishingGame.tsx:251-252 | n ticks of an extending line from 0 give length min(8n, 352) |
| FishingLine.RetractingCast | src/components/FishingGame.tsx:253-256 | retracting from L ≥ 0 loses 12 per tick for ceil(L/12) ticks and is idle on the next one |
| FishingLine.BothFlagsOvershoot | src/components/FishingGame.tsx:250-258 | with both flags set, 47 ticks from 0 reach 356 |
| Timing.NewZone | src/components/FishingGame.tsx:230-233 | a drawn zone has start in [50,70), end in [70,90), so 0 ≤ start < end ≤ 100 |
| Timing.Open | src/components/FishingGame.tsx:226-235 | a hooked fish opens an active, unresolved challenge on that fish at progress 0 with a zone in range |
| Timing.Advance | src/components/FishingGame.tsx:148-157 | only progress changes; an inactive challenge is untouched; an active one never reaches 100; even progress in [0,98] stays so |
| Timing.AdvanceFromZero | src/components/FishingGame.tsx:151-157 | from 0, n frames give progress (2n) mod 100 |
| Bite.FirstNear | src/components/FishingGame.tsx:218-222 | the index found is of the first fish inside the strict box around the hook; none is found exactly when no fish is inside |
| Bite.RemoveId | src/components/FishingGame.tsx:225 | the result keeps only fish of the population, none carrying the id, and is the population itself when no fish carries it |
| Bite.RemoveIdDeletesOne | src/components/FishingGame.tsx:225 | with distinct ids, removing by fish i's id deletes exactly fish i and keeps the rest in order |
| Bite.DeleteKeepsInvariant | src/components/FishingGame.tsx:225 | deleting one fish keeps the population well formed with distinct ids |
| Bite.Cast | src/components/FishingGame.tsx:217-225 | a cast hooks the first near fish and removes exactly it (distinct ids), or, with no fish near, hooks none and changes nothing |
| Economy.Countdown | src/components/FishingGame.tsx:264-272 | one second is taken off only while playing with time left; nothing else changes; the timer never becomes negative |
| Economy.Settle | src/components/FishingGame.tsx:273-275 | only the playing flag changes, and only from playing at timer 0; afterwards timer 0 implies stopped |
| Economy.CountdownRun | src/components/FishingGame.tsx:264-276 | n seconds after a running start with t left, max(t−n,0) are left, the game runs exactly while n < t, and money and catches are unchanged |
| Economy.StoppedStaysStopped | src/components/FishingGame.tsx:264-276 | seconds change nothing once the game is stopped |
| Engine.StartGame | src/components/FishingGame.tsx:200-204 | money, timer, score and catches are kept; the game plays exactly when time is left; the line is idle; 15 fresh fish, fish k being the one spawned from the k-th draws, with ids `fish-0`..`fish-14`; nothing else changes |
| Engine.SecondTick | src/components/FishingGame.tsx:264-276 | the countdown takes a second off only while playing with time left; the game keeps playing exactly when it was playing with more than one second left, so it stops on reaching 0; money, catches and score are kept; nothing else changes |
| Engine.FishFrame | src/components/FishingGame.tsx:98-130 | fish move only while playing with time left; then fish k becomes the one-fish step of fish k under the sine of its own swim angle, stays in the field and keeps its id; well-formedness and distinct ids are kept; nothing else changes |
| Engine.ProgressFrame | src/components/FishingGame.tsx:148-160 | only the challenge progress changes; an inactive challenge is untouched; an active one at even progress p in [0,98] moves to (p+2) mod 100 and stays in that range |
| Engine.LineTick | src/components/FishingGame.tsx:247-258 | the line ticks only while playing; nothing else changes; the line bounds [-8,356] are kept |
| Engine.Toggle | src/components/FishingGame.tsx:207-244 | no-op when locked; from idle only sets extending; while extending clears it, schedules one retract, and removes exactly the first near fish opening a challenge on it at progress 0 (or, with none near, leaves fish and challenge alone); otherwise no-op |
| Engine.RetractDue | src/components/FishingGame.tsx:240-242 | with no retract scheduled nothing happens; a scheduled one sets the retract flag, consumes one pending retract, and leaves length, extend flag and everything else alone; the game invariant is kept |
| Engine.KeyDown | src/components/FishingGame.tsx:280-291 | ArrowLeft subtracts 15 exactly when unlocked and the boat is past 80, ArrowRight adds 15 exactly when unlocked and below 720; space is the toggle; the boat stays in [70,730] on the 400 + 15k grid |
| Engine.ClickAsWritten | src/components/FishingGame.tsx:163-197 | the click as written: money grows by the fish's value and catches by one exactly when the challenge is active with a fish and progress is in the zone, even on an already won challenge, and timer, playing flag and score are kept; a landing click sets success, shows the fish and schedules one reset; a miss resets the challenge; no-op without an active fish; nothing else changes |
| Engine.ClickAsWrittenCreditsTwice | src/components/FishingGame.tsx:163-187 | a landing click as written leaves a click that still lands, so two clicks credit the fish's value twice and count two catches |
| Engine.Click | src/components/FishingGame.tsx:163-197 | corrected click: a hit credits exactly the fish's value and one catch, keeps timer, playing flag and score, sets only the success flag of the challenge, shows the fish and schedules one reset, and changes nothing else (fish, line, boat, pending retracts); a miss resets the challenge and keeps the score; an already won challenge ignores clicks |
| Engine.ClickIdempotent | src/components/FishingGame.tsx:163-187 | clicking twice has the effect of clicking once |
| Engine.DoubleCreditAsWritten | src/components/FishingGame.tsx:163-187 | two clicks as written credit a small fish twice (120 to 140, 2 catches); corrected, once (130) |
| Engine.ResetDue | src/components/FishingGame.tsx:178-187 | a pending reset sets the challenge to its default (inactive, no fish, progress 0, zone 60..80, not won), clears the caught display and consumes one pending reset; session, fish, line, boat and pending retracts are kept; the game invariant is kept |
| Engine.InitialInv | src/components/FishingGame.tsx:46-64 | the initial state (120, 137, stopped, boat 400, idle line and challenge) satisfies the invariant |
| Engine.ApplyKeepsInv | src/components/FishingGame.tsx:98-286 | every event of the component as written (as-written click) keeps fish in the field with distinct ids, the line in bounds, progress even in [0,98], zone in range, boat in [70,730], timer in [0,137] with 0 meaning stopped, money ≥ 120 |
| Engine.RunKeepsInv | src/components/FishingGame.tsx:98-286 | every run of events of the component as written (as-written click) from an invariant state keeps the invariant |
| Engine.ApplyCorrectedKeepsInv | src/components/FishingGame.tsx:98-286 | every event of the corrected engine (a won challenge ignores clicks) keeps the same invariant |
| Engine.MoneyOnlyOnCatch | src/components/FishingGame.tsx:163-176 | in the component as written, money and the catch counter change exactly on a landing catch click (active, with a fish, progress in zone), by the fish's value and by one |
| Engine.MoneyOnlyOnCatchCorrected | src/components/FishingGame.tsx:163-176 | in the corrected engine, money and catches change exactly on a landing click on a challenge not yet won, by the fish's value and by one |
| Engine.AtMostOneRemoved | src/components/FishingGame.tsx:219-225 | apart from a start, an event removes at most one fish and adds none |
| Engine.RestartAfterTimeout | src/components/FishingGame.tsx:200-204 | a restart at timer 0 leaves the session stopped, with money and catches kept |
| Engine.LineIntervalsTick | src/components/FishingGame.tsx:247-258 | while playing, n line intervals are n line ticks |
| Engine.ToggleRace | src/components/FishingGame.tsx:207-258 | three quick toggles and the pending retract set both flags, after which the line reaches 356 |

## Left out

- Rendering: JSX, framer-motion, icons, `Card`/`Button`, CSS, the French UI text, and the species colours, which are used only for drawing. `src/App.tsx` is also left out; it only mounts the component.
- Host scheduling: `requestAnimationFrame`, `setInterval`, `setTimeout` and the hook wiring. Each tick and each deferred callback is an explicit event. The delays themselves (50 ms, 1 s, 500 ms) and the order in which the host fires them are not modelled.
- React closure staleness. One example is the call of the progress loop right after opening a challenge, whose guard reads the old `isActive`. Whether that loop runs in the live app is a scheduling question. Here the progress frame is an event that applies whenever it fires.
- The space-key debounce (`isSpacePressed`) and `formatTime`. They are input handling and display.
- Probabilities: draws are parameters. Only the species regions' volumes are computed, and no distribution is reasoned about.
- Floating point: reals stand in for IEEE doubles, and `Math.PI * 2` is taken as the double 6.283185307179586.
- The `score` field is never written by the component. It is carried along unchanged.

## Findings

| source | as written | input that shows it | evidently intended | confidence | as-written member | corrected member |
|---|---|---|---|---|---|---|
| src/components/FishingGame.tsx:163-187 | the click checks only that the challenge is active with a fish; a success sets `success` but keeps the challenge active for the 1 s before the reset, with the catch button still shown | active challenge on a small fish (value 10), progress 60, zone 55..75, money 120; click twice | each hooked fish is credited once (a won challenge ignores further clicks) | not executed; medium: the missing guard and the delay are plain in the code, but the double credit is reachable only if the progress loop runs; as written the loop is started only at line 236, whose guard (line 149) reads the challenge as inactive in the render that opened it, so progress stays 0, below every zone start; that scheduling is outside this model | Engine.ClickAsWrittenCreditsTwice | Engine.ClickIdempotent |

=== FILE: bite.dfy ===
/** The bite check made when the player stops extending the line: the first
    fish, in population order, whose position lies strictly inside a 100 by 100
    box centred on the hook is hooked and removed from the population by id. */
module Bite {
  import opened Wrappers
  import opened Population

  /** Screen height of the water surface, where the line enters the water. */
  const SurfaceY: int := 220
  /** Half-width of the box around the hook, on each axis. */
  const BiteRadius: real := 50.0

  function Abs(r: real): real {
    if r < 0.0 then -r else r
  }

  /** Whether a fish is close enough to the hook at the end of a line of the
      given length hanging from a boat at the given horizontal position. */
  predicate Near(f: Fish, boat: int, length: int) {
    Abs(f.x - boat as real) < BiteRadius && Abs(f.y - (SurfaceY + length) as real) < BiteRadius
  }

  /** Fish i is the first near fish of the sequence. */
  predicate FirstNearAt(fs: seq<Fish>, boat: int, length: int, i: int) {
    && 0 <= i < |fs|
    && Near(fs[i], boat, length)
    && forall j :: 0 <= j < i ==> !Near(fs[j], boat, length)
  }

  /** The index of the first near fish, if any. */
  function FirstNear(fs: seq<Fish>, boat: int, length: int): (r: Option<nat>)
    ensures r.Some? ==> FirstNearAt(fs, boat, length, r.value)
    ensures r.None? <==> forall j :: 0 <= j < |fs| ==> !Near(fs[j], boat, length)
    decreases |fs|
  {
    if |fs| == 0 then None
    else if Near(fs[0], boat, length) then Some(0)
    else
      match FirstNear(fs[1..], boat, length)
      case None => None
      case Some(i) => Some(i + 1)
  }

  /** The population without every fish carrying the given id. */
  function RemoveId(fs: seq<Fish>, id: string): (r: seq<Fish>)
    ensures |r| <= |fs|
    ensures forall k :: 0 <= k < |r| ==> r[k].id != id && r[k] in fs
    ensures (forall k :: 0 <= k < |fs| ==> fs[k].id != id) ==> r == fs
    decreases |fs|
  {
    if |fs| == 0 then []
    else if fs[0].id == id then RemoveId(fs[1..], id)
    else [fs[0]] + RemoveId(fs[1..], id)
  }

  /** With distinct ids, removing by the id of fish i deletes exactly that fish
      and keeps the others in order. */
  lemma {:induction false} RemoveIdDeletesOne(fs: seq<Fish>, i: nat)
    requires DistinctIds(fs) && i < |fs|
    ensures RemoveId(fs, fs[i].id) == fs[..i] + fs[i + 1..]
    decreases |fs|
  {
    var tail := fs[1..];
    DistinctTail(fs);
    if i == 0 {
      assert RemoveId(fs, fs[0].id) == RemoveId(tail, fs[0].id);
      assert fs[..0] + fs[1..] == tail;
    } else {
      assert tail[i - 1] == fs[i];
      assert RemoveId(fs, fs[i].id) == [fs[0]] + RemoveId(tail, fs[i].id);
      RemoveIdDeletesOne(tail, i - 1);
      assert tail[..i - 1] == fs[1..i] && tail[i..] == fs[i + 1..];
      assert fs[..i] == [fs[0]] + fs[1..i];
    }
  }

  /** The tail of a population with distinct ids has distinct ids, none of them
      the head's. */
  lemma DistinctTail(fs: seq<Fish>)
    requires DistinctIds(fs) && |fs| > 0
    ensures DistinctIds(fs[1..])
    ensures forall k :: 0 <= k < |fs| - 1 ==> fs[1..][k].id != fs[0].id
  {
    forall k | 0 <= k < |fs| - 1 ensures fs[1..][k].id != fs[0].id {
      assert fs[1..][k] == fs[k + 1];
    }
  }

  /** Deleting one fish keeps the population well formed and its ids
      distinct. */
  lemma DeleteKeepsInvariant(fs: seq<Fish>, i: nat)
    requires AllWellFormed(fs) && DistinctIds(fs) && i < |fs|
    ensures AllWellFormed(fs[..i] + fs[i + 1..]) && DistinctIds(fs[..i] + fs[i + 1..])
  {
    var r := fs[..i] + fs[i + 1..];
    assert forall k :: 0 <= k < |r| ==> r[k] == fs[if k < i then k else k + 1];
  }

  /** The outcome of a cast: the population afterwards and the hooked fish. */
  datatype Catch = Catch(rest: seq<Fish>, hooked: Option<Fish>)

  /** The bite check. It hooks the first near fish in list order, if there is
      one, and removes exactly that fish; with no near fish nothing changes. */
  function Cast(fs: seq<Fish>, boat: int, length: int): (r: Catch)
    ensures r.hooked.None? <==> forall j :: 0 <= j < |fs| ==> !Near(fs[j], boat, length)
    ensures r.hooked.None? ==> r.rest == fs
    ensures r.hooked.Some? ==>
              exists i :: FirstNearAt(fs, boat, length, i) && r.hooked.value == fs[i]
                          && (DistinctIds(fs) ==> r.rest == fs[..i] + fs[i + 1..])
    ensures |fs| - 1 <= |r.rest| || !DistinctIds(fs)
  {
    match FirstNear(fs, boat, length)
    case None => Catch(fs, None)
    case Some(i) =>
      assert DistinctIds(fs) ==> RemoveId(fs, fs[i].id) == fs[..i] + fs[i + 1..] by {
        if DistinctIds(fs) { RemoveIdDeletesOne(fs, i); }
      }
      Catch(RemoveId(fs, fs[i].id), Some(fs[i]))
  }
}

=== FILE: economy.dfy ===
/** The session's economy and lifecycle: money, the countdown, the playing
    flag and the catch counter. */
module Economy {

  datatype Session = Session(money: int, timer: int, isPlaying: bool, score: int, fishCaught: int)

  const StartMoney: int := 120
  const TimeBudget: int := 137
  const InitialSession := Session(StartMoney, TimeBudget, false, 0, 0)

  /** The one-second interval, which exists only while playing with time left:
      it takes one second off and touches nothing else. */
  function Countdown(s: Session): (r: Session)
    ensures r.(timer := s.timer) == s
    ensures r.timer == (if s.isPlaying && s.timer > 0 then s.timer - 1 else s.timer)
    ensures 0 <= s.timer ==> 0 <= r.timer
  {
    if s.isPlaying && s.timer > 0 then s.(timer := s.timer - 1) else s
  }

  /** The countdown effect's other branch, re-run whenever the playing flag or
      the timer changes: with no time left the game stops, and money and the
      catch counter are kept as the final score. */
  function Settle(s: Session): (r: Session)
    ensures r.(isPlaying := s.isPlaying) == s
    ensures r.timer == 0 ==> !r.isPlaying
    ensures r.isPlaying != s.isPlaying ==> s.timer == 0 && s.isPlaying
  {
    if !(s.isPlaying && s.timer > 0) && s.timer == 0 then s.(isPlaying := false) else s
  }

  /** One wall-clock second. */
  function Second(s: Session): Session {
    Settle(Countdown(s))
  }

  function Seconds(s: Session, n: nat): Session
    decreases n
  {
    if n == 0 then s else Seconds(Second(s), n - 1)
  }

  /** From a running session with t seconds left, n seconds later max(t - n, 0)
      seconds are left, the game is running exactly while time is left, and
      money and the catch counter are untouched. */
  lemma {:induction false} CountdownRun(s: Session, n: nat)
    requires s.isPlaying && s.timer > 0
    ensures Seconds(s, n).timer == (if n <= s.timer then s.timer - n else 0)
    ensures Seconds(s, n).isPlaying <==> n < s.timer
    ensures Seconds(s, n).(timer := s.timer, isPlaying := true) == s
    decreases n
  {
    if n > 0 {
      var s' := Second(s);
      if s.timer == 1 {
        StoppedStaysStopped(s', n - 1);
      } else {
        CountdownRun(s', n - 1);
      }
    }
  }

  /** Once stopped, seconds change nothing. */
  lemma {:induction false} StoppedStaysStopped(s: Session, n: nat)
    requires !s.isPlaying
    ensures Seconds(s, n) == s
    decreases n
  {
    if n > 0 {
      assert Second(s) == s;
      StoppedStaysStopped(s, n - 1);
    }
  }
}

=== FILE: engine.dfy ===
/** The game engine: one record holding every piece of the component's state,
    the player intents and timer callbacks as explicit events, and the
    invariants every event preserves. Deferred callbacks (the retract 500 ms
    after a cast, the challenge reset 1 s after a catch) are counted as pending
    and fire as events of their own; like the timers they model, they are never
    cancelled. */
module Engine {
  import opened Wrappers
  import opened Ids
  import opened Population
  import opened FishingLine
  import opened Timing
  import opened Bite
  import opened Economy

  datatype Game = Game(
    session: Session,
    fish: seq<Fish>,
    line: Line,
    boat: int,
    caught: Option<Fish>,
    challenge: Challenge,
    pendingRetracts: nat,
    pendingResets: nat)

  const BoatStart: int := 400
  const BoatStep: int := 15
  /** ArrowLeft moves the boat only while it is right of this. */
  const BoatLeftLimit: int := 80
  /** ArrowRight moves the boat only while it is left of this. */
  const BoatRightLimit: int := 720

  const InitialGame := Game(InitialSession, [], IdleLine, BoatStart, None, IdleChallenge, 0, 0)

  datatype Key = ArrowLeft | ArrowRight | Space | OtherKey

  predicate Locked(g: Game) {
    !g.session.isPlaying || g.challenge.isActive
  }

  // ---------------------------------------------------------------------------
  // Session lifecycle

  /** The start button: play, idle the line and spawn a fresh population. Money,
      timer and catch counter are kept, so a game whose time has run out is
      stopped again at once. */
  function StartGame(g: Game, ds: seq<FishDraws>): (r: Game)
    requires |ds| == FishCount && AllValidDraws(ds)
    ensures r.session.money == g.session.money && r.session.timer == g.session.timer
    ensures r.session.fishCaught == g.session.fishCaught && r.session.score == g.session.score
    ensures g.session.timer >= 0 ==> (r.session.isPlaying <==> g.session.timer > 0)
    ensures r.line == IdleLine
    ensures |r.fish| == FishCount && AllWellFormed(r.fish) && DistinctIds(r.fish)
    ensures forall k :: 0 <= k < |r.fish| ==> r.fish[k].id == FishId(k)
    ensures forall k :: 0 <= k < |r.fish| ==> r.fish[k] == SpawnOne(k, ds[k])
    ensures r.(session := g.session, fish := g.fish, line := g.line) == g
  {
    g.(session := Settle(g.session.(isPlaying := true)), line := IdleLine, fish := Spawn(ds))
  }

  /** The wall-clock second: the countdown, then the game-over check. */
  function SecondTick(g: Game): (r: Game)
    ensures r.(session := g.session) == g
    ensures r.session.money == g.session.money && r.session.fishCaught == g.session.fishCaught
    ensures r.session.timer == (if g.session.isPlaying && g.session.timer > 0 then g.session.timer - 1
                                else g.session.timer)
    ensures r.session.timer == 0 ==> !r.session.isPlaying
    ensures r.session.isPlaying ==> g.session.isPlaying
    ensures g.session.timer >= 0 ==> (r.session.isPlaying <==> g.session.isPlaying && g.session.timer > 1)
    ensures r.session.score == g.session.score
  {
    g.(session := Second(g.session))
  }

  // ---------------------------------------------------------------------------
  // Frames and ticks

  /** One animation frame of the fish, only while playing with time left: each
      fish takes one motion step with the sine of its own swim angle, in
      order, and all end in the field. */
  function FishFrame(g: Game, sin: real -> real): (r: Game)
    ensures r.(fish := g.fish) == g
    ensures !g.session.isPlaying || g.session.timer <= 0 ==> r == g
    ensures g.session.isPlaying && g.session.timer > 0 ==>
              && |r.fish| == |g.fish|
              && (forall k :: 0 <= k < |r.fish| ==> r.fish[k] == StepFish(g.fish[k], sin(g.fish[k].swimAngle)))
              && (forall k :: 0 <= k < |r.fish| ==> InField(r.fish[k]) && r.fish[k].id == g.fish[k].id)
    ensures AllWellFormed(g.fish) && DistinctIds(g.fish) ==> AllWellFormed(r.fish) && DistinctIds(r.fish)
  {
    if !g.session.isPlaying || g.session.timer <= 0 then g
    else g.(fish := StepAll(g.fish, sin))
  }

  /** One animation frame of the timing challenge's progress bar: only the
      progress of an active challenge moves, by 2 modulo 100 when it is in
      range, and it stays in range. */
  function ProgressFrame(g: Game): (r: Game)
    ensures r.(challenge := g.challenge) == g
    ensures r.challenge == g.challenge.(progress := r.challenge.progress)
    ensures !g.challenge.isActive ==> r == g
    ensures g.challenge.isActive && ProgressInRange(g.challenge.progress) ==>
              r.challenge.progress == (g.challenge.progress + ProgressStep) % ProgressWrap
    ensures ProgressInRange(g.challenge.progress) ==> ProgressInRange(r.challenge.progress)
  {
    g.(challenge := Advance(g.challenge))
  }

  /** The 50 ms line tick, which runs only while playing. */
  function LineTick(g: Game): (r: Game)
    ensures r.(line := g.line) == g
    ensures !g.session.isPlaying ==> r == g
    ensures g.session.isPlaying ==> r.line == Tick(g.line)
    ensures Bounded(g.line) ==> Bounded(r.line)
  {
    if !g.session.isPlaying then g else g.(line := Tick(g.line))
  }

  // ---------------------------------------------------------------------------
  // Line control

  /** The line toggle. Locked while not playing or during a challenge; from idle
      it starts extending; while extending it stops, hooks the first fish near
      the hook (removing exactly that fish and opening a challenge on it) and
      schedules the retract; in every other state it does nothing. */
  function Toggle(g: Game, r1: real, r2: real): (r: Game)
    requires Unit(r1) && Unit(r2)
    ensures r.session == g.session && r.boat == g.boat && r.caught == g.caught
    ensures r.pendingResets == g.pendingResets
    ensures Locked(g) ==> r == g
    ensures !Locked(g) && IsIdle(g.line) ==> r == g.(line := g.line.(isExtending := true))
    ensures !Locked(g) && !IsIdle(g.line) && !g.line.isExtending ==> r == g
    ensures !Locked(g) && g.line.isExtending ==>
              && r.line == g.line.(isExtending := false)
              && r.pendingRetracts == g.pendingRetracts + 1
    ensures !Locked(g) && g.line.isExtending && NoneNear(g) ==>
              r.fish == g.fish && r.challenge == g.challenge
    ensures !Locked(g) && g.line.isExtending && !NoneNear(g) ==>
              exists i :: && FirstNearAt(g.fish, g.boat, g.line.length, i)
                          && (DistinctIds(g.fish) ==> r.fish == g.fish[..i] + g.fish[i + 1..])
                          && r.challenge.isActive && r.challenge.fish == Some(g.fish[i])
                          && r.challenge.progress == 0 && !r.challenge.success
                          && ZoneInRange(r.challenge.zone)
  {
    if Locked(g) then g
    else if IsIdle(g.line) then g.(line := g.line.(isExtending := true))
    else if g.line.isExtending then
      var c := Cast(g.fish, g.boat, g.line.length);
      var stopped := g.(line := g.line.(isExtending := false), pendingRetracts := g.pendingRetracts + 1);
      if c.hooked.Some? then stopped.(fish := c.rest, challenge := Open(c.hooked.value, r1, r2))
      else stopped
    else g
  }

  /** No fish is close enough to the hook. */
  predicate NoneNear(g: Game) {
    forall j :: 0 <= j < |g.fish| ==> !Near(g.fish[j], g.boat, g.line.length)
  }

  /** The deferred callback that starts retracting the line. It fires only
      when scheduled, raises the retract flag whatever state the line is in
      by then, and never moves the line or clears its extend flag. */
  function RetractDue(g: Game): (r: Game)
    ensures g.pendingRetracts == 0 ==> r == g
    ensures g.pendingRetracts > 0 ==> r.line.isRetracting && r.pendingRetracts == g.pendingRetracts - 1
    ensures r.line.length == g.line.length && r.line.isExtending == g.line.isExtending
    ensures r.(line := g.line, pendingRetracts := g.pendingRetracts) == g
    ensures Inv(g) ==> Inv(r)
  {
    if g.pendingRetracts == 0 then g
    else g.(line := g.line.(isRetracting := true), pendingRetracts := g.pendingRetracts - 1)
  }

  // ---------------------------------------------------------------------------
  // Keyboard

  /** A key press. The arrows move the boat by 15 within its limits and the
      space bar toggles the line; everything is ignored while locked. */
  function KeyDown(g: Game, key: Key, r1: real, r2: real): (r: Game)
    requires Unit(r1) && Unit(r2)
    ensures r.boat != g.boat ==> !Locked(g) && r == g.(boat := r.boat)
    ensures r.boat == g.boat - BoatStep <==> !Locked(g) && key == ArrowLeft && g.boat > BoatLeftLimit
    ensures r.boat == g.boat + BoatStep <==> !Locked(g) && key == ArrowRight && g.boat < BoatRightLimit
    ensures key != Space ==> r.(boat := g.boat) == g
    ensures key == Space ==> r == Toggle(g, r1, r2)
    ensures BoatInRange(g.boat) ==> BoatInRange(r.boat)
  {
    if Locked(g) then g
    else if key == ArrowLeft && g.boat > BoatLeftLimit then g.(boat := g.boat - BoatStep)
    else if key == ArrowRight && g.boat < BoatRightLimit then g.(boat := g.boat + BoatStep)
    else if key == Space then Toggle(g, r1, r2)
    else g
  }

  /** The positions reachable from 400 in steps of 15 within the limits. */
  predicate BoatInRange(b: int) {
    b % 15 == 10 && 70 <= b <= 730
  }

  // ---------------------------------------------------------------------------
  // Catch click

  /** Whether a click now lands: a challenge is active, has a fish, and its
      progress lies in the zone, bounds included. */
  predicate ClickHits(g: Game) {
    g.challenge.isActive && g.challenge.fish.Some? && Hits(g.challenge)
  }

  /** The catch button exactly as the component handles it: it checks only
      that a challenge is active and has a fish. A landing click credits the
      fish's value and one catch, even on a challenge already won and waiting
      for its reset; it marks the challenge won, shows the fish as caught and
      schedules the reset. A miss resets the challenge and keeps the score. */
  function ClickAsWritten(g: Game): (r: Game)
    ensures r.session.money == g.session.money + (if ClickHits(g) then g.challenge.fish.value.value else 0)
    ensures r.session.fishCaught == g.session.fishCaught + (if ClickHits(g) then 1 else 0)
    ensures r.(session := g.session, challenge := g.challenge, caught := g.caught,
               pendingResets := g.pendingResets) == g
    ensures !g.challenge.isActive || g.challenge.fish.None? ==> r == g
    ensures ClickHits(g) ==>
              && r.session == g.session.(money := g.session.money + g.challenge.fish.value.value,
                                         fishCaught := g.session.fishCaught + 1)
              && r.challenge == g.challenge.(success := true) && r.caught == g.challenge.fish
              && r.pendingResets == g.pendingResets + 1
    ensures g.challenge.isActive && g.challenge.fish.Some? && !Hits(g.challenge) ==>
              r == g.(challenge := IdleChallenge)
  {
    if !g.challenge.isActive || g.challenge.fish.None? then g
    else if Hits(g.challenge) then
      var s := g.session;
      g.(session := s.(money := s.money + g.challenge.fish.value.value, fishCaught := s.fishCaught + 1),
         caught := g.challenge.fish,
         challenge := g.challenge.(success := true),
         pendingResets := g.pendingResets + 1)
    else g.(challenge := IdleChallenge)
  }

  /** As written, a landing click leaves the challenge active and still
      landing, so any landing click followed by a second one credits the fish
      twice and counts two catches. */
  lemma ClickAsWrittenCreditsTwice(g: Game)
    requires ClickHits(g)
    ensures ClickHits(ClickAsWritten(g))
    ensures ClickAsWritten(ClickAsWritten(g)).session.money == g.session.money + 2 * g.challenge.fish.value.value
    ensures ClickAsWritten(ClickAsWritten(g)).session.fishCaught == g.session.fishCaught + 2
  {
  }

  /** Whether a click now catches the fish (with the corrected guard). */
  predicate CatchSucceeds(g: Game) {
    g.challenge.isActive && g.challenge.fish.Some? && !g.challenge.success && Hits(g.challenge)
  }

  /** The catch button with the guard the component evidently intends: a
      challenge already won is waiting for its reset and ignores clicks. A
      click succeeds exactly when the progress lies in the zone, bounds
      included; success credits exactly the fish's value and changes only the
      success flag of the challenge; a miss resets the challenge and keeps the
      score. */
  function Click(g: Game): (r: Game)
    ensures !g.challenge.isActive || g.challenge.fish.None? || g.challenge.success ==> r == g
    ensures CatchSucceeds(g) ==>
              && r.session == g.session.(money := g.session.money + g.challenge.fish.value.value,
                                         fishCaught := g.session.fishCaught + 1)
              && r.challenge == g.challenge.(success := true)
              && r.caught == g.challenge.fish && r.pendingResets == g.pendingResets + 1
              && r.(session := g.session, challenge := g.challenge, caught := g.caught,
                    pendingResets := g.pendingResets) == g
    ensures g.challenge.isActive && g.challenge.fish.Some? && !g.challenge.success && !Hits(g.challenge) ==>
              r == g.(challenge := IdleChallenge)
  {
    if g.challenge.success then g else ClickAsWritten(g)
  }

  /** A second click changes nothing: each hooked fish is credited at most
      once. */
  lemma ClickIdempotent(g: Game)
    ensures Click(Click(g)) == Click(g)
  {
  }

  /** The component as written credits a fish twice when the button is clicked
      again before the one-second reset: a small fish (worth 10) hooked with
      progress 60 in the zone 55..75 turns 120 into 140 and counts two
      catches. */
  lemma DoubleCreditAsWritten()
    ensures var g := InitialGame.(session := InitialSession.(isPlaying := true),
                                  challenge := Challenge(true, Some(SmallFish()), 60, Window(55.0, 75.0), false));
            && ClickAsWritten(ClickAsWritten(g)).session.money == 140
            && ClickAsWritten(ClickAsWritten(g)).session.fishCaught == 2
            && Click(Click(g)).session.money == 130
  {
  }

  function SmallFish(): (f: Fish)
    ensures f.value == TraitsOf(Small).value
  {
    Fish(FishId(0), 400.0, 300.0, Small, 10, 2.0, 1.0, 1, 1, 20, 0.0)
  }

  /** The deferred callback that clears the challenge and the caught display.
      It fires only when scheduled, and then leaves no challenge active (even
      one opened after it was scheduled) while keeping money, catches, fish,
      line and boat. */
  function ResetDue(g: Game): (r: Game)
    ensures g.pendingResets == 0 ==> r == g
    ensures g.pendingResets > 0 ==>
              && r.challenge == IdleChallenge
              && r.caught.None? && r.pendingResets == g.pendingResets - 1
    ensures r.session == g.session && r.fish == g.fish && r.line == g.line && r.boat == g.boat
    ensures r.pendingRetracts == g.pendingRetracts
    ensures Inv(g) ==> Inv(r)
  {
    if g.pendingResets == 0 then g
    else g.(challenge := IdleChallenge, caught := None, pendingResets := g.pendingResets - 1)
  }

  // ---------------------------------------------------------------------------
  // Events

  datatype Event =
    | Start(draws: seq<FishDraws>)
    | FishAnimation(sin: real -> real)
    | ProgressAnimation
    | LineInterval
    | CountdownInterval
    | KeyPress(key: Key, zone1: real, zone2: real)
    | CatchClick
    | RetractTimeout
    | ResetTimeout

  /** Random draws carried by an event are in [0, 1), and a population is drawn
      for the fixed count. */
  predicate ValidEvent(e: Event) {
    match e
    case Start(ds) => |ds| == FishCount && AllValidDraws(ds)
    case KeyPress(_, r1, r2) => Unit(r1) && Unit(r2)
    case _ => true
  }

  function Apply(g: Game, e: Event): Game
    requires ValidEvent(e)
  {
    match e
    case Start(ds) => StartGame(g, ds)
    case FishAnimation(sin) => FishFrame(g, sin)
    case ProgressAnimation => ProgressFrame(g)
    case LineInterval => LineTick(g)
    case CountdownInterval => SecondTick(g)
    case KeyPress(key, r1, r2) => KeyDown(g, key, r1, r2)
    case CatchClick => ClickAsWritten(g)
    case RetractTimeout => RetractDue(g)
    case ResetTimeout => ResetDue(g)
  }

  /** The engine with the corrected catch click; every other event is as in
      the component. */
  function ApplyCorrected(g: Game, e: Event): Game
    requires ValidEvent(e)
  {
    if e.CatchClick? then Click(g) else Apply(g, e)
  }

  predicate AllValid(es: seq<Event>) {
    forall k :: 0 <= k < |es| ==> ValidEvent(es[k])
  }

  function Run(g: Game, es: seq<Event>): Game
    requires AllValid(es)
    decreases |es|
  {
    if |es| == 0 then g else Run(Apply(g, es[0]), es[1..])
  }

  // ---------------------------------------------------------------------------
  // Invariants

  predicate ChallengeOk(c: Challenge) {
    && ProgressInRange(c.progress)
    && ZoneInRange(c.zone)
    && (!c.isActive ==> c == IdleChallenge)
    && (c.isActive ==> c.fish.Some? && WellFormed(c.fish.value))
  }

  predicate SessionOk(s: Session) {
    && 0 <= s.timer <= TimeBudget
    && (s.timer == 0 ==> !s.isPlaying)
    && s.money >= StartMoney
    && s.fishCaught >= 0
    && s.score == 0
  }

  /** What holds in every reachable state: fish in the field with distinct ids,
      the line within its bounds, the challenge's progress and zone in range,
      the boat within its limits, and a sane score and countdown. */
  predicate Inv(g: Game) {
    && AllWellFormed(g.fish) && DistinctIds(g.fish) && |g.fish| <= FishCount
    && Bounded(g.line)
    && ChallengeOk(g.challenge)
    && BoatInRange(g.boat)
    && SessionOk(g.session)
    && (g.caught.Some? ==> WellFormed(g.caught.value))
  }

  lemma InitialInv()
    ensures Inv(InitialGame)
  {
  }

  lemma ToggleKeepsInv(g: Game, r1: real, r2: real)
    requires Inv(g) && Unit(r1) && Unit(r2)
    ensures Inv(Toggle(g, r1, r2))
  {
    if !Locked(g) && g.line.isExtending {
      match FirstNear(g.fish, g.boat, g.line.length)
      case None =>
      case Some(i) => DeleteKeepsInvariant(g.fish, i);
    }
  }

  /** Every event keeps the invariant. */
  lemma ApplyKeepsInv(g: Game, e: Event)
    requires Inv(g) && ValidEvent(e)
    ensures Inv(Apply(g, e))
  {
    match e
    case Start(ds) =>
    case FishAnimation(sin) =>
      StepAllKeepsInvariant(g.fish, sin);
    case ProgressAnimation =>
    case LineInterval =>
    case CountdownInterval =>
    case KeyPress(key, r1, r2) =>
      if key == Space { ToggleKeepsInv(g, r1, r2); }
    case CatchClick =>
    case RetractTimeout =>
    case ResetTimeout =>
  }

  /** Every run of events from a state satisfying the invariant keeps it; in
      particular every state reachable from the initial one satisfies it. */
  lemma {:induction false} RunKeepsInv(g: Game, es: seq<Event>)
    requires Inv(g) && AllValid(es)
    ensures Inv(Run(g, es))
    decreases |es|
  {
    if |es| > 0 {
      ApplyKeepsInv(g, es[0]);
      RunKeepsInv(Apply(g, es[0]), es[1..]);
    }
  }

  /** The corrected engine keeps the invariant too. */
  lemma ApplyCorrectedKeepsInv(g: Game, e: Event)
    requires Inv(g) && ValidEvent(e)
    ensures Inv(ApplyCorrected(g, e))
  {
    if !e.CatchClick? {
      ApplyKeepsInv(g, e);
    }
  }

  /** In the component, money and the catch counter change exactly on a catch
      click that lands (active challenge with a fish, progress in the zone),
      by the fish's value and by one; a challenge already won is credited
      again. */
  lemma MoneyOnlyOnCatch(g: Game, e: Event)
    requires Inv(g) && ValidEvent(e)
    ensures Apply(g, e).session.money != g.session.money <==> e.CatchClick? && ClickHits(g)
    ensures Apply(g, e).session.fishCaught != g.session.fishCaught <==> e.CatchClick? && ClickHits(g)
    ensures e.CatchClick? && ClickHits(g) ==>
              && Apply(g, e).session.money == g.session.money + g.challenge.fish.value.value
              && Apply(g, e).session.fishCaught == g.session.fishCaught + 1
  {
  }

  /** With the corrected click, money and the catch counter change exactly on
      a landing click on a challenge not yet won. */
  lemma MoneyOnlyOnCatchCorrected(g: Game, e: Event)
    requires Inv(g) && ValidEvent(e)
    ensures ApplyCorrected(g, e).session.money != g.session.money <==> e.CatchClick? && CatchSucceeds(g)
    ensures ApplyCorrected(g, e).session.fishCaught != g.session.fishCaught <==> e.CatchClick? && CatchSucceeds(g)
    ensures e.CatchClick? && CatchSucceeds(g) ==>
              && ApplyCorrected(g, e).session.money == g.session.money + g.challenge.fish.value.value
              && ApplyCorrected(g, e).session.fishCaught == g.session.fishCaught + 1
  {
  }

  /** At most one fish leaves the population per event, except at a start,
      which replaces it. */
  lemma AtMostOneRemoved(g: Game, e: Event)
    requires Inv(g) && ValidEvent(e) && !e.Start?
    ensures |g.fish| - 1 <= |Apply(g, e).fish| <= |g.fish|
  {
  }

  /** Restarting a game whose time has run out stops it again at once, keeping
      the final money and catch count. */
  lemma RestartAfterTimeout(g: Game, ds: seq<FishDraws>)
    requires g.session.timer == 0 && |ds| == FishCount && AllValidDraws(ds)
    ensures StartGame(g, ds).session == g.session.(isPlaying := false)
  {
  }

  // ---------------------------------------------------------------------------
  // The toggle race

  function LineIntervals(n: nat): (es: seq<Event>)
    ensures |es| == n && AllValid(es)
    ensures forall k :: 0 <= k < n ==> es[k] == LineInterval
  {
    seq(n, _ => LineInterval)
  }

  /** While playing, the engine's line interval is exactly the line tick. */
  lemma {:induction false} LineIntervalsTick(g: Game, n: nat)
    requires g.session.isPlaying
    ensures Run(g, LineIntervals(n)) == g.(line := Ticks(g.line, n))
    decreases n
  {
    if n > 0 {
      assert LineIntervals(n)[1..] == LineIntervals(n - 1);
      LineIntervalsTick(LineTick(g), n - 1);
    }
  }

  /** Three quick presses of the space bar (start, stop at length zero, start
      again) followed by the retract scheduled by the stop leave the line both
      extending and retracting; 47 line ticks later it is 356 long, past the
      352 an ordinary cast reaches. */
  lemma ToggleRace()
    ensures var g := InitialGame.(session := InitialSession.(isPlaying := true));
            var presses := [KeyPress(Space, 0.0, 0.0), KeyPress(Space, 0.0, 0.0),
                            KeyPress(Space, 0.0, 0.0), RetractTimeout];
            && AllValid(presses)
            && Run(g, presses).line == Line(0, true, true)
            && Run(Run(g, presses), LineIntervals(47)).line.length == 356
  {
    var g := InitialGame.(session := InitialSession.(isPlaying := true));
    var presses := [KeyPress(Space, 0.0, 0.0), KeyPress(Space, 0.0, 0.0),
                    KeyPress(Space, 0.0, 0.0), RetractTimeout];
    var g1 := KeyDown(g, Space, 0.0, 0.0);
    assert g1.line == Line(0, true, false);
    var g2 := KeyDown(g1, Space, 0.0, 0.0);
    assert g2.line == Line(0, false, false) && g2.pendingRetracts == 1;
    var g3 := KeyDown(g2, Space, 0.0, 0.0);
    assert g3.line == Line(0, true, false);
    var g4 := RetractDue(g3);
    assert g4.line == Line(0, true, true);
    assert Run(g, presses) == g4 by {
      assert presses[1..] == [KeyPress(Space, 0.0, 0.0), KeyPress(Space, 0.0, 0.0), RetractTimeout];
      assert presses[1..][1..] == [KeyPress(Space, 0.0, 0.0), RetractTimeout];
      assert presses[1..][1..][1..] == [RetractTimeout];
    }
    LineIntervalsTick(g4, 47);
    BothFlagsOvershoot();
  }
}

=== FILE: fishing_line.dfy ===
/** The fishing line: an integer length and two mode flags, advanced by a
    50 ms tick while the game is playing. */
module FishingLine {

  datatype Line = Line(length: int, isExtending: bool, isRetracting: bool)

  const IdleLine := Line(0, false, false)
  /** The tick extends only while the length is below this. */
  const ExtendLimit: int := 350
  const ExtendStep: int := 8
  const RetractStep: int := 12

  /** The state from which a toggle starts a new cast. */
  predicate IsIdle(l: Line) {
    !l.isExtending && !l.isRetracting && l.length == 0
  }

  /** The bounds every reachable line keeps: its length is a multiple of four
      between -8 and 356. */
  predicate Bounded(l: Line) {
    l.length % 4 == 0 && -8 <= l.length <= 356
  }

  /** One 50 ms tick. Extending wins over retracting; a retracting line that has
      reached zero or below is reset to idle; the flags are only changed by
      that reset. */
  function Tick(l: Line): (r: Line)
    ensures l.isExtending && l.length < ExtendLimit ==> r == l.(length := l.length + ExtendStep)
    ensures !(l.isExtending && l.length < ExtendLimit) && l.isRetracting && l.length > 0
            ==> r == l.(length := l.length - RetractStep)
    ensures !(l.isExtending && l.length < ExtendLimit) && l.isRetracting && l.length <= 0 ==> r == IdleLine
    ensures !(l.isExtending && l.length < ExtendLimit) && !l.isRetracting ==> r == l
    ensures r.length < l.length ==> l.isRetracting && l.length > 0 && r == l.(length := l.length - RetractStep)
    ensures r.isExtending != l.isExtending || r.isRetracting != l.isRetracting
            ==> r == IdleLine && l.isRetracting && l.length <= 0
    ensures !l.isExtending && !l.isRetracting ==> r == l
    ensures Bounded(l) ==> Bounded(r)
  {
    if l.isExtending && l.length < ExtendLimit then l.(length := l.length + ExtendStep)
    else if l.isRetracting && l.length > 0 then l.(length := l.length - RetractStep)
    else if l.isRetracting && l.length <= 0 then IdleLine
    else l
  }

  /** n consecutive ticks. */
  function Ticks(l: Line, n: nat): Line
    decreases n
  {
    if n == 0 then l else Ticks(Tick(l), n - 1)
  }

  function Min(a: int, b: int): int {
    if a <= b then a else b
  }

  /** A cast that only extends: after n ticks from length zero the line is
      min(8n, 352) long, so it never exceeds 352; which retract flag it carries
      does not matter for the first 44 ticks. */
  lemma {:induction false} ExtendingCast(n: nat, retracting: bool)
    requires n <= 44 || !retracting
    ensures Ticks(Line(0, true, retracting), n) == Line(Min(8 * n, 352), true, retracting)
  {
    ExtendingFrom(0, n, retracting);
  }

  lemma {:induction false} ExtendingFrom(k: nat, n: nat, retracting: bool)
    requires k <= 44
    requires k + n <= 44 || !retracting
    ensures Ticks(Line(8 * k, true, retracting), n) == Line(Min(8 * (k + n), 352), true, retracting)
    decreases n
  {
    if n > 0 {
      if k < 44 {
        assert Tick(Line(8 * k, true, retracting)) == Line(8 * (k + 1), true, retracting);
        ExtendingFrom(k + 1, n - 1, retracting);
      } else {
        assert Tick(Line(352, true, false)) == Line(352, true, false);
        StuckAt352(n - 1);
      }
    }
  }

  lemma {:induction false} StuckAt352(n: nat)
    ensures Ticks(Line(352, true, false), n) == Line(352, true, false)
    decreases n
  {
    if n > 0 {
      assert Tick(Line(352, true, false)) == Line(352, true, false);
      StuckAt352(n - 1);
    }
  }

  /** A retraction that only retracts: from a non-negative length L the line
      loses 12 per tick for ceil(L/12) ticks and is idle on the tick after. */
  lemma {:induction false} RetractingCast(len: int, n: nat)
    requires len >= 0
    ensures n <= (len + 11) / 12 ==> Ticks(Line(len, false, true), n) == Line(len - 12 * n, false, true)
    ensures Ticks(Line(len, false, true), (len + 11) / 12 + 1) == IdleLine
    decreases n
  {
    RetractingPrefix(len, n);
    RetractingPrefix(len, (len + 11) / 12);
    var m := (len + 11) / 12;
    TicksSplit(Line(len, false, true), m, 1);
    assert Tick(Line(len - 12 * m, false, true)) == IdleLine;
  }

  lemma {:induction false} RetractingPrefix(len: int, n: nat)
    requires len > -RetractStep
    ensures n <= (len + 11) / 12 ==> Ticks(Line(len, false, true), n) == Line(len - 12 * n, false, true)
    decreases n
  {
    if n > 0 && n <= (len + 11) / 12 {
      assert Tick(Line(len, false, true)) == Line(len - 12, false, true);
      RetractingPrefix(len - 12, n - 1);
    }
  }

  lemma {:induction false} TicksSplit(l: Line, a: nat, b: nat)
    ensures Ticks(l, a + b) == Ticks(Ticks(l, a), b)
    decreases a
  {
    if a > 0 {
      TicksSplit(Tick(l), a - 1, b);
    }
  }

  /** With both flags set (see the toggle race in the engine), ticks carry a
      line from zero up to 356, past the 352 an extend-only cast reaches. */
  lemma BothFlagsOvershoot()
    ensures Ticks(Line(0, true, true), 47) == Line(356, true, true)
  {
    ExtendingCast(44, true);
    TicksSplit(Line(0, true, true), 44, 3);
    assert Tick(Line(352, true, true)) == Line(340, true, true);
    assert Tick(Line(340, true, true)) == Line(348, true, true);
    assert Tick(Line(348, true, true)) == Line(356, true, true);
  }
}

=== FILE: ids.dfy ===
/** Fish identities: the `fish-<i>` strings given to spawned fish, and the
    decimal rendering of an index that they are built from. */
module Ids {

  predicate IsDigit(c: char) {
    '0' <= c <= '9'
  }

  predicate AllDigits(s: string) {
    forall k :: 0 <= k < |s| ==> IsDigit(s[k])
  }

  function DigitChar(d: nat): (c: char)
    requires d < 10
    ensures IsDigit(c)
  {
    ('0' as int + d) as char
  }

  function DigitValue(c: char): (d: nat)
    requires IsDigit(c)
    ensures d < 10
  {
    c as int - '0' as int
  }

  /** Decimal rendering of a natural number without leading zeros, as a
      JavaScript template literal renders a non-negative integer. */
  function NatToString(n: nat): (s: string)
    ensures |s| >= 1
    ensures AllDigits(s)
    ensures n >= 10 <==> |s| >= 2
    decreases n
  {
    if n < 10 then [DigitChar(n)] else NatToString(n / 10) + [DigitChar(n % 10)]
  }

  /** The value of a string of decimal digits (the inverse rendering). */
  function ParseNat(s: string): (n: nat)
    requires AllDigits(s)
    decreases |s|
  {
    if |s| == 0 then 0 else 10 * ParseNat(s[..|s| - 1]) + DigitValue(s[|s| - 1])
  }

  /** Rendering then parsing gives the number back. */
  lemma {:induction false} ParseRendered(n: nat)
    ensures ParseNat(NatToString(n)) == n
    decreases n
  {
    var s := NatToString(n);
    if n >= 10 {
      ParseRendered(n / 10);
      assert s[..|s| - 1] == NatToString(n / 10);
    }
  }

  /** Distinct numbers render to distinct strings. */
  lemma RenderInjective(a: nat, b: nat)
    requires NatToString(a) == NatToString(b)
    ensures a == b
  {
    ParseRendered(a);
    ParseRendered(b);
  }

  const FishIdPrefix: string := "fish-"

  /** The id given to the i-th spawned fish. */
  function FishId(i: nat): (id: string)
    ensures |id| > |FishIdPrefix| && id[..|FishIdPrefix|] == FishIdPrefix
    ensures AllDigits(id[|FishIdPrefix|..]) && ParseNat(id[|FishIdPrefix|..]) == i
  {
    var id := FishIdPrefix + NatToString(i);
    assert id[|FishIdPrefix|..] == NatToString(i);
    ParseRendered(i);
    id
  }

  /** Two spawn indices share an id exactly when they are equal. */
  lemma FishIdInjective(i: nat, j: nat)
    ensures FishId(i) == FishId(j) <==> i == j
  {
    if FishId(i) == FishId(j) {
      assert FishId(i)[|FishIdPrefix|..] == FishId(j)[|FishIdPrefix|..];
    }
  }
}

=== FILE: population.dfy ===
/** The fish population: the species table, spawning of a fresh population and
    the per-frame bounce-and-clamp motion of every fish. Random draws and the
    sine of the swim angle are parameters. */
module Population {
  import opened Ids

  datatype Species = Small | Medium | Large | Shark

  /** One row of the species table: catch value, rendered size and the base
      horizontal and vertical speeds. */
  datatype Traits = Traits(value: int, size: int, speedX: real, speedY: real)

  function TraitsOf(sp: Species): Traits {
    match sp
    case Small => Traits(10, 20, 2.0, 1.0)
    case Medium => Traits(25, 30, 1.5, 0.8)
    case Large => Traits(50, 40, 1.0, 0.6)
    case Shark => Traits(100, 60, 0.8, 0.4)
  }

  datatype Fish = Fish(
    id: string,
    x: real,
    y: real,
    species: Species,
    value: int,
    speedX: real,
    speedY: real,
    dirX: int,
    dirY: int,
    size: int,
    swimAngle: real)

  const FishCount: nat := 15
  const FieldWidth: real := 750.0
  const WaterTop: real := 280.0
  const WaterBottom: real := 580.0
  /** Height of the band, below the water top, in which fish are spawned. */
  const SpawnDepth: real := 280.0
  const JitterX: real := 0.5
  const JitterY: real := 0.3
  /** Twice the double-precision value of pi, the spawn range of the swim angle. */
  const TwoPi: real := 6.283185307179586
  const SwimAngleStep: real := 0.02

  /** A random draw: a real in [0, 1). */
  predicate Unit(r: real) {
    0.0 <= r < 1.0
  }

  predicate IsDirection(d: int) {
    d == 1 || d == -1
  }

  predicate InField(f: Fish) {
    0.0 <= f.x <= FieldWidth && WaterTop <= f.y <= WaterBottom
  }

  /** What holds of every live fish: it is inside the play field, moves in a
      direction of sign one on each axis, and carries its species' value, size
      and at least its species' base speeds. */
  predicate WellFormed(f: Fish) {
    && InField(f)
    && IsDirection(f.dirX) && IsDirection(f.dirY)
    && f.value == TraitsOf(f.species).value
    && f.size == TraitsOf(f.species).size
    && f.speedX >= TraitsOf(f.species).speedX
    && f.speedY >= TraitsOf(f.species).speedY
  }

  predicate DistinctIds(fs: seq<Fish>) {
    forall i, j :: 0 <= i < j < |fs| ==> fs[i].id != fs[j].id
  }

  predicate AllWellFormed(fs: seq<Fish>) {
    forall k :: 0 <= k < |fs| ==> WellFormed(fs[k])
  }

  // ---------------------------------------------------------------------------
  // Species draw

  /** The species cascade: a first draw below 0.4 gives a small fish, otherwise
      a second draw below 0.3 a medium one, otherwise a third draw below 0.2 a
      large one, and otherwise a shark. */
  function DrawSpecies(a: real, b: real, c: real): Species {
    if a < 0.4 then Small
    else if b < 0.3 then Medium
    else if c < 0.2 then Large
    else Shark
  }

  /** A half-open interval [lo, hi) of draw values. */
  datatype Interval = Interval(lo: real, hi: real) {
    predicate Contains(r: real) { lo <= r < hi }
    function Width(): real { hi - lo }
  }

  /** A box of three draws: one interval per draw of the cascade. */
  datatype Box = Box(a: Interval, b: Interval, c: Interval) {
    predicate Contains(x: real, y: real, z: real) {
      a.Contains(x) && b.Contains(y) && c.Contains(z)
    }
    function Volume(): real { a.Width() * b.Width() * c.Width() }
  }

  const Whole := Interval(0.0, 1.0)

  /** The region of the unit cube of draws that yields each species. */
  function RegionOf(sp: Species): Box {
    match sp
    case Small => Box(Interval(0.0, 0.4), Whole, Whole)
    case Medium => Box(Interval(0.4, 1.0), Interval(0.0, 0.3), Whole)
    case Large => Box(Interval(0.4, 1.0), Interval(0.3, 1.0), Interval(0.0, 0.2))
    case Shark => Box(Interval(0.4, 1.0), Interval(0.3, 1.0), Interval(0.2, 1.0))
  }

  /** The cascade picks a species exactly when its three draws lie in that
      species' region, so the regions partition the unit cube. */
  lemma DrawSpeciesRegions(a: real, b: real, c: real, sp: Species)
    requires Unit(a) && Unit(b) && Unit(c)
    ensures DrawSpecies(a, b, c) == sp <==> RegionOf(sp).Contains(a, b, c)
  {
  }

  /** The regions' volumes, i.e. the chance of each species under independent
      uniform draws, are 0.4, 0.18, 0.084 and 0.336, and they sum to one. */
  lemma SpeciesWeights()
    ensures RegionOf(Small).Volume() == 0.4
    ensures RegionOf(Medium).Volume() == 0.18
    ensures RegionOf(Large).Volume() == 0.084
    ensures RegionOf(Shark).Volume() == 0.336
    ensures RegionOf(Small).Volume() + RegionOf(Medium).Volume()
            + RegionOf(Large).Volume() + RegionOf(Shark).Volume() == 1.0
  {
  }

  // ---------------------------------------------------------------------------
  // Spawning

  /** The random draws consumed by one spawned fish. */
  datatype FishDraws = FishDraws(
    kind1: real, kind2: real, kind3: real,
    x: real, y: real,
    jitterX: real, jitterY: real,
    dirX: real, dirY: real,
    angle: real)

  predicate ValidDraws(d: FishDraws) {
    && Unit(d.kind1) && Unit(d.kind2) && Unit(d.kind3)
    && Unit(d.x) && Unit(d.y)
    && Unit(d.jitterX) && Unit(d.jitterY)
    && Unit(d.dirX) && Unit(d.dirY)
    && Unit(d.angle)
  }

  predicate AllValidDraws(ds: seq<FishDraws>) {
    forall k :: 0 <= k < |ds| ==> ValidDraws(ds[k])
  }

  function DirectionOf(r: real): (d: int)
    ensures IsDirection(d)
    ensures d == 1 <==> r > 0.5
  {
    if r > 0.5 then 1 else -1
  }

  /** The i-th fish of a fresh population. */
  function SpawnOne(i: nat, d: FishDraws): (f: Fish)
    requires ValidDraws(d)
    ensures f.id == FishId(i)
    ensures f.species == DrawSpecies(d.kind1, d.kind2, d.kind3)
    ensures WellFormed(f)
    ensures 0.0 <= f.x < FieldWidth && WaterTop <= f.y < WaterTop + SpawnDepth
    ensures TraitsOf(f.species).speedX <= f.speedX < TraitsOf(f.species).speedX + JitterX
    ensures TraitsOf(f.species).speedY <= f.speedY < TraitsOf(f.species).speedY + JitterY
    ensures 0.0 <= f.swimAngle < TwoPi
  {
    var sp := DrawSpecies(d.kind1, d.kind2, d.kind3);
    var t := TraitsOf(sp);
    Fish(
      FishId(i),
      d.x * FieldWidth,
      WaterTop + d.y * SpawnDepth,
      sp,
      t.value,
      t.speedX + d.jitterX * JitterX,
      t.speedY + d.jitterY * JitterY,
      DirectionOf(d.dirX),
      DirectionOf(d.dirY),
      t.size,
      d.angle * TwoPi)
  }

  /** A fresh population: fish i is spawned from the i-th draws, in order. */
  function Spawn(ds: seq<FishDraws>): (fs: seq<Fish>)
    requires AllValidDraws(ds)
    ensures |fs| == |ds|
    ensures forall k :: 0 <= k < |fs| ==> fs[k] == SpawnOne(k, ds[k])
    ensures AllWellFormed(fs)
    ensures DistinctIds(fs)
    decreases |ds|
  {
    if |ds| == 0 then []
    else
      var prefix := Spawn(ds[..|ds| - 1]);
      var last := SpawnOne(|ds| - 1, ds[|ds| - 1]);
      forall k | 0 <= k < |prefix|
        ensures prefix[k].id != last.id
      {
        FishIdInjective(k, |ds| - 1);
      }
      prefix + [last]
  }

  // ---------------------------------------------------------------------------
  // Motion

  /** Bounce against [lo, hi]: a coordinate whose unclamped value p reaches or
      passes a bound reverses its direction and is clamped to the bound. */
  function Reflect(p: real, dir: int, lo: real, hi: real): (r: (real, int))
    requires lo < hi
    ensures lo <= r.0 <= hi
    ensures r.1 == (if p <= lo || p >= hi then -dir else dir)
    ensures lo < p < hi ==> r.0 == p
    ensures p <= lo ==> r.0 == lo
    ensures p >= hi ==> r.0 == hi
  {
    if p <= lo || p >= hi then
      (if p < lo then lo else if p > hi then hi else p, -dir)
    else (p, dir)
  }

  /** Where a fish's motion would take it horizontally before any bounce. */
  function UnclampedX(f: Fish): real {
    f.x + f.speedX * f.dirX as real
  }

  /** Where a fish's motion would take it vertically before any bounce. */
  function UnclampedY(f: Fish, sine: real): real {
    f.y + f.speedY * f.dirY as real * sine
  }

  /** One animation frame of one fish, given the sine of its current swim
      angle. Whatever the prior position, the fish ends inside the field; a
      direction is negated exactly when its unclamped coordinate reaches or
      passes a bound, a coordinate at or past a bound is clamped to that bound,
      and a coordinate strictly inside is not moved by the clamp. */
  function StepFish(f: Fish, sine: real): (g: Fish)
    ensures InField(g)
    ensures g.dirX == (if UnclampedX(f) <= 0.0 || UnclampedX(f) >= FieldWidth then -f.dirX else f.dirX)
    ensures g.dirY == (if UnclampedY(f, sine) <= WaterTop || UnclampedY(f, sine) >= WaterBottom
                       then -f.dirY else f.dirY)
    ensures 0.0 < UnclampedX(f) < FieldWidth ==> g.x == UnclampedX(f)
    ensures WaterTop < UnclampedY(f, sine) < WaterBottom ==> g.y == UnclampedY(f, sine)
    ensures UnclampedX(f) <= 0.0 ==> g.x == 0.0
    ensures UnclampedX(f) >= FieldWidth ==> g.x == FieldWidth
    ensures UnclampedY(f, sine) <= WaterTop ==> g.y == WaterTop
    ensures UnclampedY(f, sine) >= WaterBottom ==> g.y == WaterBottom
    ensures g.swimAngle == f.swimAngle + SwimAngleStep
    ensures g.(x := f.x, y := f.y, dirX := f.dirX, dirY := f.dirY, swimAngle := f.swimAngle) == f
    ensures WellFormed(f) ==> WellFormed(g)
  {
    var horiz := Reflect(UnclampedX(f), f.dirX, 0.0, FieldWidth);
    var vert := Reflect(UnclampedY(f, sine), f.dirY, WaterTop, WaterBottom);
    f.(x := horiz.0, y := vert.0, dirX := horiz.1, dirY := vert.1, swimAngle := f.swimAngle + SwimAngleStep)
  }

  /** One animation frame of the whole population; `sin` is the sine function. */
  function StepAll(fs: seq<Fish>, sin: real -> real): (gs: seq<Fish>)
    ensures |gs| == |fs|
    ensures forall k :: 0 <= k < |gs| ==> gs[k] == StepFish(fs[k], sin(fs[k].swimAngle))
    ensures forall k :: 0 <= k < |gs| ==> InField(gs[k]) && gs[k].id == fs[k].id
  {
    seq(|fs|, k requires 0 <= k < |fs| => StepFish(fs[k], sin(fs[k].swimAngle)))
  }

  /** A frame keeps the population well formed and its ids distinct. */
  lemma StepAllKeepsInvariant(fs: seq<Fish>, sin: real -> real)
    requires AllWellFormed(fs) && DistinctIds(fs)
    ensures AllWellFormed(StepAll(fs, sin)) && DistinctIds(StepAll(fs, sin))
  {
  }
}

=== FILE: timing.dfy ===
/** The timing challenge opened when a fish bites: a progress value that climbs
    by 2 per animation frame and wraps to 0, and a target window the player must
    hit. */
module Timing {
  import opened Wrappers
  import opened Population

  /** The target zone, in percent of the bar. */
  datatype Window = Window(start: real, end: real)

  datatype Challenge = Challenge(
    isActive: bool,
    fish: Option<Fish>,
    progress: int,
    zone: Window,
    success: bool)

  const ProgressStep: int := 2
  const ProgressWrap: int := 100
  const DefaultZone := Window(60.0, 80.0)
  /** The state a challenge is reset to, and starts in. */
  const IdleChallenge := Challenge(false, None, 0, DefaultZone, false)

  /** Where a zone drawn at a bite can lie: start in [50, 70), end in [70, 90).
      The reset zone 60..80 lies there too. */
  predicate ZoneInRange(w: Window) {
    50.0 <= w.start < 70.0 <= w.end < 90.0
  }

  /** A progress value reachable from 0 by steps of 2 with wrap. */
  predicate ProgressInRange(p: int) {
    p % 2 == 0 && 0 <= p <= 98
  }

  /** A new target window from two draws in [0, 1): it lies within the bar and
      its start is strictly below its end, whatever the draws. */
  function NewZone(r1: real, r2: real): (w: Window)
    requires Unit(r1) && Unit(r2)
    ensures ZoneInRange(w)
    ensures 0.0 <= w.start < w.end <= 100.0
  {
    Window(50.0 + r1 * 20.0, 70.0 + r2 * 20.0)
  }

  /** The challenge opened on a hooked fish. */
  function Open(f: Fish, r1: real, r2: real): (c: Challenge)
    requires Unit(r1) && Unit(r2)
    ensures c.isActive && c.fish == Some(f) && c.progress == 0 && !c.success
    ensures ZoneInRange(c.zone)
  {
    Challenge(true, Some(f), 0, NewZone(r1, r2), false)
  }

  /** One animation frame of the progress bar; an inactive challenge is left
      alone. The progress of an active challenge never equals 100, and progress
      that is even and in [0, 98] stays so. */
  function Advance(c: Challenge): (d: Challenge)
    ensures d.(progress := c.progress) == c
    ensures !c.isActive ==> d == c
    ensures c.isActive ==> d.progress != ProgressWrap
    ensures ProgressInRange(c.progress) ==> ProgressInRange(d.progress)
  {
    if !c.isActive then c
    else if c.progress + ProgressStep >= ProgressWrap then c.(progress := 0)
    else c.(progress := c.progress + ProgressStep)
  }

  /** n consecutive frames. */
  function AdvanceN(c: Challenge, n: nat): Challenge
    decreases n
  {
    if n == 0 then c else AdvanceN(Advance(c), n - 1)
  }

  /** From progress 0, n frames leave progress at 2n modulo 100: a catch
      attempt may span any number of wrap cycles. */
  lemma {:induction false} AdvanceFromZero(c: Challenge, n: nat)
    requires c.isActive && c.progress == 0
    ensures AdvanceN(c, n) == c.(progress := (2 * n) % 100)
  {
    AdvanceFrom(c, 0, n);
  }

  lemma {:induction false} AdvanceFrom(c: Challenge, k: nat, n: nat)
    requires c.isActive && c.progress == (2 * k) % 100
    ensures AdvanceN(c, n) == c.(progress := (2 * (k + n)) % 100)
    decreases n
  {
    if n > 0 {
      assert Advance(c).progress == (2 * (k + 1)) % 100;
      AdvanceFrom(Advance(c), k + 1, n - 1);
    }
  }

  /** Whether a click at this instant lands in the zone, bounds included. */
  predicate Hits(c: Challenge) {
    c.zone.start <= c.progress as real <= c.zone.end
  }
}

=== FILE: wrappers.dfy ===
/** The conventional Some/None datatype, standing in for the component's
    nullable references (the challenge's fish, the caught-fish display) and
    for the result of a search that may find nothing. */
module Wrappers {

  datatype Option<+T> = None | Some(value: T)
}
